=== FILE: README.md ===
# Tickets: ops read model, event routing and message middlewares in Dafny

This project models three pieces of the tickets service's event-driven core. It also proves properties about them.

- **The ops booking read model** (`db/ops_booking_read_model.go`). It is a projector that folds domain events into a table of denormalised bookings. Each row maps a booking id to its booking time, its last-update time and its tickets by ticket id.
  - `BookingMade` creates a booking, but only if no row for that booking exists yet.
  - `TicketBookingConfirmed` writes the price, currency, customer email and confirmation time of one ticket into an existing booking.
  - `TicketRefunded`, `TicketPrinted` and `TicketReceiptIssued` each overwrite their own fields of a ticket that some booking already holds.
  - An event whose booking or ticket is not there yet fails, so the broker redelivers it later.
- **The two consumers of the `events` topic** (`message/router.go`).
  - The events splitter hands each message, unchanged, to the publisher for the topic `events.<event name>`.
  - The data-lake sink archives each event's header, name and raw payload, keyed by the header's id.
  - The model also includes the static table of handler names that `NewRouter` registers.
- **The message middlewares** (`message/middleware.go`). They are decorators around every handler.
  - The correlation middleware takes the id from metadata or generates one.
  - Tracing and logging pass results through unchanged.
  - The metrics middleware counts processed and failed calls per (topic, handler).
  - The retry middleware reruns the layers inside it while the handler fails, so every counter counts attempts.
  - The per-attempt chain is built from the fixed middleware order. The retry loop's attempt bound is a parameter; `CountsUnderRetryConfig` fixes it to the configured 1 + MaxRetries = 4.

## How the model maps the code

| File | Module | Contents |
|---|---|---|
| `wrappers.dfy` | `Wrappers` | `Option` and `Result` |
| `entities.dfy` | `Entities` | Events, `OpsTicket`, `OpsBooking` |
| `messages.dfy` | `Messages` | Broker message, its metadata and context |
| `read_model.dfy` | `OpsReadModel` | Table, queries, writes, handlers |
| `read_model_properties.dfy` | `OpsReadModelProperties` | Properties that span several handler calls |
| `router.dfy` | `EventRouting` | Splitter, data-lake sink, handler registration table |
| `middleware.dfy` | `Middleware` | Decorators, counters, per-attempt chain, retries |

Design choices in the read model:

- **Table.** The SQL table becomes `Table`, a map from the `booking_id` column to the decoded JSON payload (`Row`).
  - `Table` is a subset type: every row sits under the booking id its own payload names.
  - Both write paths key the payload by `booking.BookingID`, so this invariant always holds.
- **Null ticket maps.** `Row.tickets` is an `Option`. `None` stands for a payload whose ticket map is JSON `null`.
  - Decoding (`Unmarshal`) turns it into an empty map, as `unmarshalReadModelFromDB` does.
- **Handlers** are pure functions `Table × event × now → Result<Table, Error>`.
  - `now` is the `time.Now()` value that `updateReadModel` and `OnBookingMade` stamp into `LastUpdate`.
  - For confirmations and ticket-level events, redelivery properties are stated as `Apply(Apply(t, e, n1), e, n2) == Apply(t, e, n2)`: only the later timestamp survives.
  - A redelivered `BookingMade` is a no-op, so the first delivery's `LastUpdate` survives.
- **Ticket lookup.** `findByTicketID` is a `QueryRow` and returns some booking whose ticket map holds the ticket. `FindByTicketId` models it as an arbitrary such booking.
  - Lemmas that chain two ticket-level updates assume that one booking at most holds the ticket (`SoleOwner`).
- **Field groups.** A ticket's fields are split into four groups: confirmation, printing, receipt and refund. Each event type writes exactly one group. This is the basis of the commutation and idempotence lemmas.

Parameters stand for the configured marshaler and the id generator:

- `nameOf` is the configured marshaler's `NameFromMessage`.
- `decodeHeader` is its `Unmarshal` into the header struct.
- `generated` is the value `shortuuid.New()` returns. It is assumed non-empty. Under retries, `ids` supplies one such value per attempt.

Behaviour of the code that is easy to misread:

- **Missing event name.** The splitter and the data-lake sink return an ordinary error when the marshaler finds no event name. The message is therefore negatively acknowledged and redelivered, like after any other failure.
- **Which event creates a booking.** Only `BookingMade` creates a booking. Every other event for the booking fails until that row exists.
- **Receipt time.** `OnTicketReceiptIssued` stores the event's `IssuedAt`, not its header's `PublishedAt`.
- **Archive store.** `NewRouter` receives the archive only as the `DataLake` interface (message/router.go:42-44), implemented by `db.NewDataLake` (service/service.go:71), which is not part of this model. The archive is assumed to insert an event under its id and to ignore an id it already holds.
- **Retries and counters.** Retry is added outside the metrics middleware, so each attempt passes through the metrics middleware and the correlation middleware again.

## Model

| member | source | states |
|---|---|---|
| `OpsReadModel.OnBookingMade` | db/ops_booking_read_model.go:35-48 | Always succeeds. If the booking is absent, it is added with no tickets, `BookedAt` equal to the event's `PublishedAt` and `LastUpdate` equal to `now`, and no other row changes. If it is present, the table is returned unchanged, tickets included. |
| `OpsReadModel.CreateReadModel` | db/ops_booking_read_model.go:111-133 | Insert-if-absent: afterwards the key set holds the booking id and every existing row is kept. A new row decodes to the given booking. |
| `OpsReadModel.UpdateReadModel` | db/ops_booking_read_model.go:195-219 | Upsert under the booking's own id: that row decodes to the booking with `LastUpdate` set to `now`. Every other row is untouched. |
| `OpsReadModel.UpdateByBookingId` | db/ops_booking_read_model.go:135-161 | Fails with "not exist yet" exactly when the booking is absent. Otherwise it writes the transformed booking under its id and leaves every other row as it was. |
| `OpsReadModel.UpdateByTicketId` | db/ops_booking_read_model.go:163-193 | Fails with "not exist yet" exactly when no booking holds the ticket. Otherwise it changes only the owning booking. In that booking it replaces only that ticket, with the transformed ticket, keeps `BookedAt` and sets `LastUpdate`. |
| `OpsReadModel.OnTicketBookingConfirmed` | db/ops_booking_read_model.go:50-71 | Fails exactly when the booking is absent. Otherwise only this ticket of this booking changes. Its confirmation fields become the event's price, currency, email and `PublishedAt`. Its printing, receipt and refund fields are those of the earlier ticket, or zero if the ticket is new. |
| `OpsReadModel.OnTicketRefunded` | db/ops_booking_read_model.go:73-83 | Fails exactly when no booking holds the ticket. Otherwise only that ticket changes: `RefundedAt` becomes `PublishedAt` and all other field groups keep their values. |
| `OpsReadModel.OnTicketPrinted` | db/ops_booking_read_model.go:85-96 | Fails exactly when no booking holds the ticket. Otherwise only `PrintedAt` and `PrintedFileName` of that ticket change, to the event's values. |
| `OpsReadModel.OnTicketReceiptIssued` | db/ops_booking_read_model.go:98-109 | Fails exactly when no booking holds the ticket. Otherwise only `ReceiptIssuedAt` and `ReceiptNumber` of that ticket change, to `IssuedAt` and the receipt number. |
| `OpsReadModel.WithConfirmation` | db/ops_booking_read_model.go:61-64 | Sets the confirmation group and preserves the printing, receipt and refund groups. |
| `OpsReadModel.WithRefund` | db/ops_booking_read_model.go:78 | Sets `RefundedAt` and preserves the other three groups. |
| `OpsReadModel.WithPrinting` | db/ops_booking_read_model.go:90-91 | Sets the printing group and preserves the other three. |
| `OpsReadModel.WithReceipt` | db/ops_booking_read_model.go:103-104 | Sets the receipt group and preserves the other three. |
| `OpsReadModel.FindByBookingId` | db/ops_booking_read_model.go:240-257 | Finds a booking exactly when its id is in the table. The booking found is the decoded row: its id, `BookedAt`, `LastUpdate` and tickets are the row's. |
| `OpsReadModel.FindByTicketId` | db/ops_booking_read_model.go:221-238 | Finds a booking exactly when some booking holds the ticket, and the booking found holds it. When one booking at most holds the ticket, the result is that booking. |
| `OpsReadModel.Unmarshal` | db/ops_booking_read_model.go:259-270 | A null ticket map decodes to an empty map. Every other field is copied. |
| `OpsReadModel.FindById` | db/ops_booking_read_model.go:313-323 | Succeeds exactly when the id is present, and otherwise returns "booking not found". A booking found is the decoded row: it has that id, the row's `BookedAt` and `LastUpdate`, exactly the ticket ids the row holds, and each ticket's stored contents. |
| `OpsReadModel.ConfirmTicket` | db/ops_booking_read_model.go:54-69 | For every stored booking, the update keeps its id, `BookedAt` and `LastUpdate`. It adds the event's ticket id and leaves every other ticket as it was. The ticket's confirmation fields come from the event, and its other groups are the earlier ticket's, or zero for a new ticket. |
| `OpsReadModel.RefundPatch` | db/ops_booking_read_model.go:77-81 | For every ticket, the update sets `RefundedAt` to the event's `PublishedAt` and keeps the confirmation, printing and receipt groups. |
| `OpsReadModel.PrintPatch` | db/ops_booking_read_model.go:89-94 | For every ticket, the update sets `PrintedAt` to the event's `PublishedAt` and `PrintedFileName` to its file name. It keeps the confirmation, receipt and refund groups. |
| `OpsReadModel.ReceiptPatch` | db/ops_booking_read_model.go:102-107 | For every ticket, the update sets `ReceiptIssuedAt` to the event's `IssuedAt` and `ReceiptNumber` to its receipt number. It keeps the confirmation, printing and refund groups. |
| `OpsReadModel.NewBooking` | db/ops_booking_read_model.go:37-42 | The booking `BookingMade` creates has the event's booking id, no tickets, `BookedAt` equal to the event's `PublishedAt` and `LastUpdate` equal to `now`. |
| `OpsReadModel.Apply` | db/ops_booking_read_model.go:35-109 | Each event type goes to its own handler. `BookingMade` never fails. A confirmation fails exactly when its booking is absent, with "booking not exist yet". A ticket-level event fails exactly when no booking holds its ticket, with "ticket not exist yet". |
| `OpsReadModelProperties.FindAfterUpdate` | db/ops_booking_read_model.go:195-219 | FindByID reads back exactly the booking updateReadModel wrote, with `LastUpdate` set to the write time. Every other id reads as before. |
| `OpsReadModelProperties.FindAfterBookingMade` | db/ops_booking_read_model.go:240-257 | After `BookingMade`, FindByID returns the new booking, or the booking already stored. FindByID and findByBookingID find the same bookings. |
| `OpsReadModelProperties.UnmarshalMarshal` | db/ops_booking_read_model.go:259-270 | Decoding an encoded booking gives the booking back. |
| `OpsReadModelProperties.MarshalUnmarshal` | db/ops_booking_read_model.go:265-267 | Encoding a decoded row gives the row back exactly when its ticket map was not null. A null map comes back as an empty one. |
| `OpsReadModelProperties.PatchesIdempotentAndIndependent` | db/ops_booking_read_model.go:73-109 | Each ticket-level patch is idempotent. Patches of different event types commute. |
| `OpsReadModelProperties.UpdateByTicketIdIdempotent` | db/ops_booking_read_model.go:163-193 | If one booking at most holds the ticket, an idempotent patch applied twice through updateByTicketID equals one application at the later time. |
| `OpsReadModelProperties.UpdateByTicketIdCommute` | db/ops_booking_read_model.go:163-193 | If one booking at most holds the ticket, two commuting patches succeed or fail together and give the same table in either order. |
| `OpsReadModelProperties.TicketEventRedelivery` | db/ops_booking_read_model.go:73-109 | If one booking at most holds the ticket, redelivering a refunded, printed or receipt-issued event that succeeded has the effect of delivering it once. |
| `OpsReadModelProperties.TicketEventsCommute` | db/ops_booking_read_model.go:73-109 | If one booking at most holds the ticket, two ticket-level events of different types on one ticket succeed or fail together. Either arrival order gives the same table, so neither clears the other's fields. |
| `OpsReadModelProperties.BookingMadeRedelivery` | db/ops_booking_read_model.go:120-126 | Redelivering `BookingMade` succeeds and leaves the table as the first delivery left it. |
| `OpsReadModelProperties.ConfirmedRedelivery` | db/ops_booking_read_model.go:50-71 | Redelivering a successful `TicketBookingConfirmed` has the effect of delivering it once. |
| `OpsReadModelProperties.ConfirmedCommutesWithTicketEvent` | db/ops_booking_read_model.go:50-109 | If one booking at most holds the ticket and it is already in its booking, the confirmation and any ticket-level event for it give the same table in either order. |
| `OpsReadModelProperties.OutOfOrderConvergence` | db/ops_booking_read_model.go:145-148 | A confirmation that overtakes its booking is negatively acknowledged with "booking not exist yet". Once redelivered after `BookingMade`, it yields the same table as in-order delivery. |
| `OpsReadModelProperties.Deliver` | db/ops_booking_read_model.go:35-109 | A delivery is acknowledged exactly when its handler succeeds, and then the table is the handler's result. Otherwise it is negatively acknowledged with the handler's error, and the table is unchanged. |
| `OpsReadModelProperties.ApplyGrows` | db/ops_booking_read_model.go:35-109 | A successful handler removes no booking and no ticket, and never changes a booking's `BookedAt`. |
| `OpsReadModelProperties.Project` | db/ops_booking_read_model.go:35-109 | Folds deliveries in order. No sequence of deliveries removes a booking or a ticket or rewrites a booking's `BookedAt`. This holds with duplicates, with events out of order, and with some deliveries rejected. |
| `EventRouting.EventsSplitter` | message/router.go:67-79 | An empty event name is an error, and nothing is handed to the publisher. Otherwise the publisher receives exactly one publication: the unchanged message, for the per-type topic that carries that event name. |
| `EventRouting.EventTopic` | message/router.go:77 | The per-type topic starts with `events.`, and the rest of it is exactly the event name. |
| `EventRouting.TopicEventName` | message/router.go:77 | Returns a name only for topics that start with `events.`. |
| `EventRouting.EventTopicRoundTrip` | message/router.go:77 | The name read back from `events.<name>` is `<name>`. Only that name's topic carries it, so distinct event types never share a topic. |
| `EventRouting.DataLakeRecord` | message/router.go:81-101 | An empty event name is an error, and so is an undecodable header. Otherwise the record is keyed by the header id and carries the header, the event name and the raw payload unchanged. |
| `EventRouting.StoreEvent` | message/router.go:99 | Insert keyed by event id that keeps every stored event. An event id already present is ignored. |
| `EventRouting.StoreToDataLake` | message/router.go:81-101 | Fails exactly when no record can be built, and then nothing is stored. Otherwise the store is asked for the record `DataLakeRecord` builds. The archive gains the header id and keeps every earlier event. A new entry holds the header id, the header, the event name and the raw payload. |
| `EventRouting.ArchivalIdempotent` | message/router.go:99 | Given the assumed store that ignores an id it already holds, delivering the same message to the data-lake sink twice succeeds and stores it once. |
| `EventRouting.RegistrationNamesDistinct` | message/router.go:67-155 | All names in the registration table at router.go:67-155 are pairwise distinct. |
| `EventRouting.ReadModelNamesPrefixed` | message/router.go:132-146 | Exactly the read-model handlers carry the `ops_read_model.` prefix. |
| `EventRouting.ReadModelSlot` | message/router.go:132-146 | Each read-model handler has a slot in the table, and that slot holds its `ops_read_model.`-prefixed name. |
| `EventRouting.EachEventHasOneHandler` | message/router.go:132-146 | Every event the read model consumes has its handler registered under its name. No other slot registers that handler. |
| `Middleware.CorrelationIdFor` | message/middleware.go:119-122 | The id is never empty. It is the metadata's `correlation_id` when that is non-empty, and the generated id otherwise. |
| `Middleware.WithCorrelation` | message/middleware.go:124-127 | The next handler's context carries that correlation id. Payload, metadata, uuid, topic, handler and span are unchanged. |
| `Middleware.CorrelationIdFromMetadataWins` | message/middleware.go:119-122 | When the metadata names a correlation id, the generated id has no influence on the result. |
| `Middleware.SpanName` | message/middleware.go:142-149 | The span name embeds the topic and the handler at fixed positions. |
| `Middleware.WithSpan` | message/middleware.go:133-152 | The next handler's context carries a span named after its topic and handler, and nothing else changes. |
| `Middleware.DecoratorsTransparent` | message/middleware.go:92-162 | Around a handler that ignores the context, the tracing, correlation and log middlewares return exactly the handler's result. |
| `Middleware.MetricsMiddleware` | message/middleware.go:71-90 | Returns exactly `next`'s messages and error. The processed counter for (topic, handler) rises by one. The failed counter rises by one if and only if `next` returned an error. No other label's counters change. |
| `Middleware.RunMetricsCounts` | message/middleware.go:71-90 | Over any sequence of calls of the metrics middleware (one per attempt), a label's processed count grows by the number of calls carrying it. Its failed count grows by the number of those calls whose handling failed. |
| `Middleware.FailedNeverExceedsProcessed` | message/middleware.go:81-86 | Starting from zero, no label's failed count exceeds its processed count. |
| `Middleware.CorrelationIdMiddleware` | message/middleware.go:115-131 | Calls `next` once, on the message whose context carries the chosen correlation id, with nothing else changed. It returns `next`'s result. |
| `Middleware.TracingMiddleware` | message/middleware.go:133-162 | Calls `next` once, on the message whose context carries the span for its topic and handler, with nothing else changed. It returns `next`'s result. |
| `Middleware.LogMiddleware` | message/middleware.go:92-113 | Returns exactly what `next` returns on the same message. |
| `Middleware.HandlerView` | message/middleware.go:115-162 | The message the handler receives carries the span and the correlation id in its context. Its topic, handler, uuid, payload and metadata are those it arrived with. |
| `Middleware.Chain` | message/middleware.go:51-69 | One attempt through the layers `MiddlewareOrder` places inside Retry (tracing, correlation, log, metrics), built from that order. The chain returns exactly the handler's outcome on the message it sees. The counters move as the metrics middleware moves them, under the labels the message arrived with. |
| `Middleware.AttemptsMade` | message/middleware.go:54-60 | The retry loop makes between one attempt and the number of ids supplied. Every attempt before the last one failed. The loop stops before using up its ids only on an attempt that succeeded. |
| `Middleware.Retrying` | message/middleware.go:54-90 | The retry middleware around the per-attempt chain, making at most one attempt per id supplied. The outcome is the last attempt's. The message's own label's processed count grows by the number of attempts, and its failed count by the number of failed attempts. Every other label's counters are unchanged. |
| `Middleware.CountsUnderRetryConfig` | message/middleware.go:54-60 | With MaxRetries 3, a message whose handler always fails is counted as processed 4 times and as failed 4 times. A message handled on the first attempt is counted once as processed and never as failed. |

## Left out

- Postgres, JSON encoding and transactions: the table is a map. Errors raised by the database, by `json.Marshal` and by `json.Unmarshal` are not modelled. The repeatable-read isolation level only matters for concurrent updates, which are not modelled.
- `FindAll` (db/ops_booking_read_model.go:272-311): its filter and order are Postgres date and jsonb expressions.
- `time.Now()`: an explicit `now` parameter with no constraints.
- `OpsReadModel.FindByTicketId`: when several bookings hold one ticket, `QueryRow` returns whichever row Postgres yields first. The model picks an unspecified one. The chaining lemmas assume a single owner.
- The outbox forwarder (`message/outbox`) is not modelled; NewRouter only registers it (message/router.go:65).
- `Middleware.Retrying`: the retry loop lives in the messaging library, whose code is not part of this model. It is assumed to rerun the inner chain while the handler fails, with one attempt per supplied id; the attempt bound is that parameter, and only `CountsUnderRetryConfig` sets it to 1 + MaxRetries = 4. The outcome is taken to be the last attempt's in full, including the messages a failed last attempt produced; the library may drop those and return only the error. The backoff waits (InitialInterval 400 ms, MaxInterval 1 s, Multiplier 2) and cancellation by the message context are not modelled.
- Panics: handlers are total functions. A handler that panics leaves the metrics middleware before either counter moves, and Recoverer, further out, turns the panic into an error. Neither is modelled, so Recoverer has no layer in the chain.
- The counters are per attempt, not per delivered message. A message retried three times is counted four times. Each attempt also gets a new generated correlation id when its metadata carries none.
- Tracing beyond the span name: trace-context extraction through the global OpenTelemetry propagator, span end, and error recording on the span.
- Logging output and the processing-duration summary.
- `EventRouting.EventsSplitter`, `EventRouting.StoreToDataLake`: publish failures and archive write failures are not modelled. Both are I/O errors returned unchanged by the handlers.
- `EventRouting.EventsSplitter`: the publisher the service passes in is wrapped in a correlation decorator and a tracing decorator (service/service.go:48-52), whose code is not part of this model. The correlation middleware also replaces the message's context in place (message/middleware.go:124-127). So the copy actually published may carry correlation and trace metadata that the consumed message lacked. The model states only what the splitter hands to the publisher.
- `EventRouting.StoreEvent`: its behaviour is assumed, because the implementation behind the `DataLake` interface (message/router.go:42-44), created by `db.NewDataLake` (service/service.go:71), is not part of this model. The assumption is to insert under the event id and ignore an id already present. `EventRouting.ArchivalIdempotent` holds because of this assumption, not because of anything in message/router.go.
- The business event and command handlers (`event.Handlers`, `command.Handlers`) are not part of this model. Only their registered names are kept.
- The HTTP layer, external adapters, service bootstrapping and concurrency, the show repository and the integration-test helpers are not modelled. They are I/O or wiring around the core.

=== FILE: entities.dfy ===
/** Domain events consumed by the ops read model and the denormalised
    booking/ticket records it stores. Only the fields the projector reads or
    writes are kept. */
module Entities {

  /** An instant. The projector only copies instants from events into the
      read model and never compares them, so an integer stands for one. */
  type Timestamp = int

  /** Go's zero `time.Time`: the value of every timestamp field never set. */
  const ZeroTime: Timestamp := 0

  /** The header every event carries. */
  datatype MessageHeader = MessageHeader(id: string, publishedAt: Timestamp)

  datatype Money = Money(amount: string, currency: string)

  datatype BookingMade = BookingMade(header: MessageHeader, bookingId: string)

  datatype TicketBookingConfirmed = TicketBookingConfirmed(
    header: MessageHeader,
    ticketId: string,
    bookingId: string,
    price: Money,
    customerEmail: string)

  datatype TicketRefunded = TicketRefunded(header: MessageHeader, ticketId: string)

  datatype TicketPrinted = TicketPrinted(header: MessageHeader, ticketId: string, fileName: string)

  datatype TicketReceiptIssued = TicketReceiptIssued(
    header: MessageHeader,
    ticketId: string,
    receiptNumber: string,
    issuedAt: Timestamp)

  /** One ticket of a booking as the operations team sees it. */
  datatype OpsTicket = OpsTicket(
    priceAmount: string,
    priceCurrency: string,
    customerEmail: string,
    confirmedAt: Timestamp,
    printedAt: Timestamp,
    printedFileName: string,
    receiptIssuedAt: Timestamp,
    receiptNumber: string,
    refundedAt: Timestamp)

  /** Go's zero `OpsTicket{}`: what reading an absent key of a ticket map yields. */
  const ZeroTicket: OpsTicket := OpsTicket("", "", "", ZeroTime, ZeroTime, "", ZeroTime, "", ZeroTime)

  /** The denormalised aggregate: a booking with all its tickets by ticket id. */
  datatype OpsBooking = OpsBooking(
    bookingId: string,
    bookedAt: Timestamp,
    lastUpdate: Timestamp,
    tickets: map<string, OpsTicket>)
}

=== FILE: messages.dfy ===
/** The broker message as handlers and middlewares see it. */
module Messages {

  newtype byte = x: int | 0 <= x < 256

  type Metadata = map<string, string>

  /** Values the router and the middlewares attach to a message's context. */
  datatype Context = Context(
    topic: string,          // the topic the message was consumed from
    handler: string,        // the name of the handler processing it
    correlationId: string,  // "" until the correlation middleware sets one
    span: string)           // "" until the tracing middleware starts a span

  datatype Message = Message(uuid: string, payload: seq<byte>, metadata: Metadata, ctx: Context)

  /** Metadata lookup: an absent key reads as the empty string. */
  function MetadataGet(md: Metadata, key: string): (v: string)
    ensures key !in md ==> v == ""
    ensures key in md ==> v == md[key]
  {
    if key in md then md[key] else ""
  }
}

=== FILE: middleware.dfy ===
/** The message middlewares the router wraps around every handler, modelled
    as decorators over pure handlers. Logging, spans and the duration summary
    have no observable effect here; what remains is what each decorator hands
    to the next one, what it returns, and the two counters. */
module Middleware {
  import opened Wrappers
  import opened Messages

  datatype HandlerError = HandlerError(reason: string)

  /** What a handler returns: messages to publish, and an error or none. */
  datatype Outcome = Outcome(produced: seq<Message>, err: Option<HandlerError>)

  type HandlerFunc = Message -> Outcome

  // ---------------------------------------------------------------------
  // Order and configuration
  // ---------------------------------------------------------------------

  datatype MiddlewareKind = Recoverer | Retry | Tracing | CorrelationId | Log | Metrics

  /** The order in which useMiddlewares adds them; the first added is the
      outermost, so a message meets them in this order. */
  const MiddlewareOrder: seq<MiddlewareKind> := [Recoverer, Retry, Tracing, CorrelationId, Log, Metrics]

  datatype RetryPolicy = RetryPolicy(maxRetries: nat, initialIntervalMs: nat, maxIntervalMs: nat, multiplier: nat)

  const RetryConfig: RetryPolicy := RetryPolicy(3, 400, 1000, 2)

  // ---------------------------------------------------------------------
  // Correlation id
  // ---------------------------------------------------------------------

  const CorrelationIdKey: string := "correlation_id"

  /** The correlation id a message is handled under: the one its metadata
      carries, or `generated` (a fresh short UUID) when there is none. */
  function CorrelationIdFor(msg: Message, generated: string): (id: string)
    requires generated != ""
    ensures id != ""
    ensures MetadataGet(msg.metadata, CorrelationIdKey) != "" ==> id == msg.metadata[CorrelationIdKey]
    ensures MetadataGet(msg.metadata, CorrelationIdKey) == "" ==> id == generated
  {
    var fromMetadata := MetadataGet(msg.metadata, CorrelationIdKey);
    if fromMetadata == "" then generated else fromMetadata
  }

  /** The message with the correlation id placed in its context; nothing
      else, and in particular not its metadata, changes. */
  function WithCorrelation(msg: Message, generated: string): (m: Message)
    requires generated != ""
    ensures m.ctx.correlationId == CorrelationIdFor(msg, generated)
    ensures m.uuid == msg.uuid && m.payload == msg.payload && m.metadata == msg.metadata
    ensures m.ctx.topic == msg.ctx.topic && m.ctx.handler == msg.ctx.handler && m.ctx.span == msg.ctx.span
  {
    msg.(ctx := msg.ctx.(correlationId := CorrelationIdFor(msg, generated)))
  }

  /** correlationIdMiddleware: call `next` on the message carrying the
      correlation id in its context. */
  function CorrelationIdMiddleware<R>(next: Message -> R, generated: string, msg: Message): (r: R)
    requires generated != ""
    ensures r == next(msg.(ctx := msg.ctx.(correlationId := CorrelationIdFor(msg, generated))))
  {
    next(WithCorrelation(msg, generated))
  }

  /** When the metadata names a correlation id, the generated one plays no
      part in the result. */
  lemma CorrelationIdFromMetadataWins<R>(next: Message -> R, g1: string, g2: string, msg: Message)
    requires g1 != "" && g2 != ""
    requires MetadataGet(msg.metadata, CorrelationIdKey) != ""
    ensures CorrelationIdMiddleware(next, g1, msg) == CorrelationIdMiddleware(next, g2, msg)
  {
  }

  // ---------------------------------------------------------------------
  // Tracing and logging
  // ---------------------------------------------------------------------

  /** The span name the tracing middleware starts: "topic: T, handler: H". */
  function SpanName(topic: string, handler: string): (s: string)
    ensures |s| == 7 + |topic| + 11 + |handler|
    ensures s[7..7 + |topic|] == topic && s[7 + |topic| + 11..] == handler
  {
    "topic: " + topic + ", handler: " + handler
  }

  /** The message with a span for its topic and handler in its context. */
  function WithSpan(msg: Message): (m: Message)
    ensures m.ctx.span == SpanName(msg.ctx.topic, msg.ctx.handler)
    ensures m.uuid == msg.uuid && m.payload == msg.payload && m.metadata == msg.metadata
    ensures m.ctx.topic == msg.ctx.topic && m.ctx.handler == msg.ctx.handler
    ensures m.ctx.correlationId == msg.ctx.correlationId
  {
    msg.(ctx := msg.ctx.(span := SpanName(msg.ctx.topic, msg.ctx.handler)))
  }

  /** tracingMiddleware: call `next` inside a span and return its results. */
  function TracingMiddleware<R>(next: Message -> R, msg: Message): (r: R)
    ensures r == next(msg.(ctx := msg.ctx.(span := SpanName(msg.ctx.topic, msg.ctx.handler))))
  {
    next(WithSpan(msg))
  }

  /** logMiddleware: log around the call and return `next`'s results. */
  function LogMiddleware<R>(next: Message -> R, msg: Message): (r: R)
    ensures r == next(msg)
  {
    next(msg)
  }

  /** `next` ignores the context values the middlewares set. */
  ghost predicate ContextBlind<R>(next: Message -> R) {
    forall m: Message, c: Context :: next(m.(ctx := c)) == next(m)
  }

  /** The tracing, correlation and log middlewares add nothing to and take
      nothing from what a handler returns: around a handler that does not
      read the context they are invisible. */
  lemma DecoratorsTransparent<R>(next: Message -> R, generated: string, msg: Message)
    requires generated != ""
    requires ContextBlind(next)
    ensures TracingMiddleware(next, msg) == next(msg)
    ensures CorrelationIdMiddleware(next, generated, msg) == next(msg)
    ensures LogMiddleware(next, msg) == next(msg)
  {
    assert WithSpan(msg) == msg.(ctx := WithSpan(msg).ctx);
    assert WithCorrelation(msg, generated) == msg.(ctx := WithCorrelation(msg, generated).ctx);
  }

  // ---------------------------------------------------------------------
  // Metrics
  // ---------------------------------------------------------------------

  /** Counter labels: (topic, handler). */
  type Labels = (string, string)

  datatype Counters = Counters(processed: map<Labels, nat>, failed: map<Labels, nat>)

  const NoCounts: Counters := Counters(map[], map[])

  function Count(counter: map<Labels, nat>, l: Labels): nat {
    if l in counter then counter[l] else 0
  }

  function Inc(counter: map<Labels, nat>, l: Labels): (r: map<Labels, nat>)
    ensures Count(r, l) == Count(counter, l) + 1
    ensures forall l' :: l' != l ==> Count(r, l') == Count(counter, l')
  {
    counter[l := Count(counter, l) + 1]
  }

  function LabelsOf(msg: Message): Labels {
    (msg.ctx.topic, msg.ctx.handler)
  }

  /** metricsMiddleware: return exactly what `next` returns, count the call
      as processed under the message's labels, and as failed exactly when
      `next` returned an error. */
  function MetricsMiddleware(next: HandlerFunc, msg: Message, counters: Counters): (r: (Outcome, Counters))
    ensures r.0 == next(msg)
    ensures Count(r.1.processed, LabelsOf(msg)) == Count(counters.processed, LabelsOf(msg)) + 1
    ensures Count(r.1.failed, LabelsOf(msg)) == Count(counters.failed, LabelsOf(msg)) + 1 <==> next(msg).err.Some?
    ensures Count(r.1.failed, LabelsOf(msg)) == Count(counters.failed, LabelsOf(msg)) <==> next(msg).err.None?
    ensures forall l :: l != LabelsOf(msg) ==>
              Count(r.1.processed, l) == Count(counters.processed, l) && Count(r.1.failed, l) == Count(counters.failed, l)
  {
    var outcome := next(msg);
    var processed := Inc(counters.processed, LabelsOf(msg));
    var failed := if outcome.err.Some? then Inc(counters.failed, LabelsOf(msg)) else counters.failed;
    (outcome, Counters(processed, failed))
  }

  /** The counters after the metrics middleware handled `msgs` in order. */
  function RunMetrics(handler: HandlerFunc, msgs: seq<Message>, counters: Counters): Counters
    decreases |msgs|
  {
    if |msgs| == 0 then counters
    else RunMetrics(handler, msgs[1..], MetricsMiddleware(handler, msgs[0], counters).1)
  }

  /** How many of `msgs` carry labels `l`. */
  function CountLabelled(msgs: seq<Message>, l: Labels): nat
    decreases |msgs|
  {
    if |msgs| == 0 then 0
    else (if LabelsOf(msgs[0]) == l then 1 else 0) + CountLabelled(msgs[1..], l)
  }

  /** How many of `msgs` carry labels `l` and make `handler` fail. */
  function CountFailed(handler: HandlerFunc, msgs: seq<Message>, l: Labels): nat
    decreases |msgs|
  {
    if |msgs| == 0 then 0
    else (if LabelsOf(msgs[0]) == l && handler(msgs[0]).err.Some? then 1 else 0) + CountFailed(handler, msgs[1..], l)
  }

  /** Over any sequence of messages, the processed counter of a label grows
      by the number of messages with that label and the failed counter by
      the number of those whose handling failed. */
  lemma {:induction false} RunMetricsCounts(handler: HandlerFunc, msgs: seq<Message>, counters: Counters, l: Labels)
    ensures Count(RunMetrics(handler, msgs, counters).processed, l) == Count(counters.processed, l) + CountLabelled(msgs, l)
    ensures Count(RunMetrics(handler, msgs, counters).failed, l) == Count(counters.failed, l) + CountFailed(handler, msgs, l)
    decreases |msgs|
  {
    if |msgs| > 0 {
      var next := MetricsMiddleware(handler, msgs[0], counters).1;
      RunMetricsCounts(handler, msgs[1..], next, l);
    }
  }

  lemma {:induction false} FailedAtMostLabelled(handler: HandlerFunc, msgs: seq<Message>, l: Labels)
    ensures CountFailed(handler, msgs, l) <= CountLabelled(msgs, l)
    decreases |msgs|
  {
    if |msgs| > 0 {
      FailedAtMostLabelled(handler, msgs[1..], l);
    }
  }

  /** Starting from zero, no label ever shows more failures than processed
      messages. */
  lemma FailedNeverExceedsProcessed(handler: HandlerFunc, msgs: seq<Message>, l: Labels)
    ensures Count(RunMetrics(handler, msgs, NoCounts).failed, l) <= Count(RunMetrics(handler, msgs, NoCounts).processed, l)
  {
    RunMetricsCounts(handler, msgs, NoCounts, l);
    FailedAtMostLabelled(handler, msgs, l);
  }

  // ---------------------------------------------------------------------
  // The chain
  // ---------------------------------------------------------------------

  /** One attempt of a handler behind some layers, with the counters as they
      stand after it. */
  type Stage = Message -> (Outcome, Counters)

  /** The layers that run once per attempt: everything MiddlewareOrder puts
      inside Retry. */
  predicate PerAttempt(k: MiddlewareKind) {
    k.Tracing? || k.CorrelationId? || k.Log? || k.Metrics?
  }

  /** The handler itself, below every layer: it leaves the counters alone. */
  function Bottom(handler: HandlerFunc, counters: Counters): Stage {
    (m: Message) => (handler(m), counters)
  }

  /** metricsMiddleware as a layer: count the inner outcome on top of the
      counters the inner stage leaves. */
  function MetricsLayer(inner: Stage, msg: Message): (Outcome, Counters) {
    var p := inner(msg);
    MetricsMiddleware((_: Message) => p.0, msg, p.1)
  }

  /** The per-attempt middleware of kind `k` wrapped around `inner`. */
  function Layer(k: MiddlewareKind, inner: Stage, generated: string): Stage
    requires PerAttempt(k) && generated != ""
  {
    match k
    case Tracing => (m: Message) => TracingMiddleware(inner, m)
    case CorrelationId => (m: Message) => CorrelationIdMiddleware(inner, generated, m)
    case Log => (m: Message) => LogMiddleware(inner, m)
    case Metrics => (m: Message) => MetricsLayer(inner, m)
  }

  /** `kinds` wrapped around `bottom`, the first kind outermost. */
  function Stack(kinds: seq<MiddlewareKind>, bottom: Stage, generated: string): Stage
    requires generated != "" && forall i | 0 <= i < |kinds| :: PerAttempt(kinds[i])
    decreases |kinds|
  {
    if |kinds| == 0 then bottom
    else Layer(kinds[0], Stack(kinds[1..], bottom, generated), generated)
  }

  /** What the chain hands to the handler: the message with a span and the
      correlation id in its context, and nothing else changed. */
  function HandlerView(msg: Message, generated: string): (m: Message)
    requires generated != ""
    ensures m.ctx.span == SpanName(msg.ctx.topic, msg.ctx.handler)
    ensures m.ctx.correlationId == CorrelationIdFor(msg, generated)
    ensures LabelsOf(m) == LabelsOf(msg)
    ensures m.uuid == msg.uuid && m.payload == msg.payload && m.metadata == msg.metadata
  {
    msg.(ctx := msg.ctx.(span := SpanName(msg.ctx.topic, msg.ctx.handler),
                         correlationId := CorrelationIdFor(msg, generated)))
  }

  lemma StackUnfolds(handler: HandlerFunc, generated: string, counters: Counters, msg: Message)
    requires generated != ""
    ensures Stack(MiddlewareOrder[2..], Bottom(handler, counters), generated)(msg)
            == (handler(HandlerView(msg, generated)), MetricsMiddleware(handler, HandlerView(msg, generated), counters).1)
  {
    var bottom := Bottom(handler, counters);
    var kinds := MiddlewareOrder[2..];
    assert kinds == [Tracing, CorrelationId, Log, Metrics];
    assert kinds[1..] == [CorrelationId, Log, Metrics];
    assert kinds[2..] == [Log, Metrics];
    assert kinds[3..] == [Metrics];
    assert kinds[3..][1..] == [];
    var sM := Stack(kinds[3..], bottom, generated);
    var sL := Stack(kinds[2..], bottom, generated);
    var sC := Stack(kinds[1..], bottom, generated);
    assert Stack(kinds[3..][1..], bottom, generated) == bottom;
    assert sM == Layer(Metrics, bottom, generated);
    assert sL == Layer(Log, sM, generated);
    assert sC == Layer(CorrelationId, sL, generated);
    var seen := WithCorrelation(WithSpan(msg), generated);
    assert seen == HandlerView(msg, generated);
    calc {
      Stack(kinds, bottom, generated)(msg);
      sC(WithSpan(msg));
      sL(seen);
      MetricsLayer(bottom, seen);
    }
  }

  /** One attempt through the per-attempt layers of MiddlewareOrder (tracing,
      correlation, log, metrics): the chain returns exactly the handler's
      outcome on the message it sees, and the counters move as the metrics
      middleware moves them, under the labels the message arrived with. */
  function Chain(handler: HandlerFunc, generated: string, counters: Counters, msg: Message): (r: (Outcome, Counters))
    requires generated != ""
    ensures r.0 == handler(HandlerView(msg, generated))
    ensures r.1 == MetricsMiddleware(handler, HandlerView(msg, generated), counters).1
    ensures Count(r.1.processed, LabelsOf(msg)) == Count(counters.processed, LabelsOf(msg)) + 1
  {
    StackUnfolds(handler, generated, counters, msg);
    Stack(MiddlewareOrder[2..], Bottom(handler, counters), generated)(msg)
  }

  // ---------------------------------------------------------------------
  // Retries
  // ---------------------------------------------------------------------

  /** Ids the correlation middleware can generate, one per attempt. */
  predicate FreshIds(ids: seq<string>) {
    |ids| >= 1 && forall i | 0 <= i < |ids| :: ids[i] != ""
  }

  /** How many attempts the retry middleware makes, read off the handler
      alone: every attempt before the last failed, and the loop ends early
      only on an attempt that succeeded. */
  function AttemptsMade(handler: HandlerFunc, ids: seq<string>, msg: Message): (n: nat)
    requires FreshIds(ids)
    ensures 1 <= n <= |ids|
    ensures forall i | 0 <= i < n - 1 :: handler(HandlerView(msg, ids[i])).err.Some?
    ensures n < |ids| ==> handler(HandlerView(msg, ids[n - 1])).err.None?
    decreases |ids|
  {
    if handler(HandlerView(msg, ids[0])).err.None? || |ids| == 1 then 1
    else
      assert FreshIds(ids[1..]) by {
        assert forall i | 0 <= i < |ids[1..]| :: ids[1..][i] == ids[i + 1];
      }
      var rest := AttemptsMade(handler, ids[1..], msg);
      assert forall i | 1 <= i < rest + 1 :: ids[i] == ids[1..][i - 1];
      1 + rest
  }

  /** The retry middleware around the per-attempt chain: run it again while
      it fails, with at most |ids| attempts in all. Each attempt passes the
      correlation middleware afresh, so a message without a correlation id
      gets a new one, ids[i], on attempt i. The counters count attempts, not
      deliveries: a label's processed count grows by the number of attempts
      and its failed count by the number of failed attempts, and the outcome
      is the last attempt's. */
  function Retrying(handler: HandlerFunc, ids: seq<string>, counters: Counters, msg: Message): (r: (Outcome, Counters))
    requires FreshIds(ids)
    ensures var n, l := AttemptsMade(handler, ids, msg), LabelsOf(msg);
            && r.0 == handler(HandlerView(msg, ids[n - 1]))
            && Count(r.1.processed, l) == Count(counters.processed, l) + n
            && Count(r.1.failed, l) == Count(counters.failed, l) + (if r.0.err.Some? then n else n - 1)
    ensures forall l' :: l' != LabelsOf(msg) ==>
              Count(r.1.processed, l') == Count(counters.processed, l') && Count(r.1.failed, l') == Count(counters.failed, l')
    decreases |ids|
  {
    var attempt := Chain(handler, ids[0], counters, msg);
    if attempt.0.err.None? || |ids| == 1 then attempt
    else
      assert FreshIds(ids[1..]) by {
        assert forall i | 0 <= i < |ids[1..]| :: ids[1..][i] == ids[i + 1];
      }
      var r := Retrying(handler, ids[1..], attempt.1, msg);
      assert ids[1..][AttemptsMade(handler, ids[1..], msg) - 1] == ids[AttemptsMade(handler, ids, msg) - 1];
      r
  }

  /** With the configured policy, a message its handler always rejects is
      counted as processed and as failed 1 + MaxRetries = 4 times, while one
      handled on the first attempt is counted once and not as failed. */
  lemma CountsUnderRetryConfig(handler: HandlerFunc, ids: seq<string>, counters: Counters, msg: Message)
    requires FreshIds(ids) && |ids| == RetryConfig.maxRetries + 1
    ensures (forall g | g != "" :: handler(HandlerView(msg, g)).err.Some?) ==>
              var r := Retrying(handler, ids, counters, msg);
              && r.0.err.Some?
              && Count(r.1.processed, LabelsOf(msg)) == Count(counters.processed, LabelsOf(msg)) + 4
              && Count(r.1.failed, LabelsOf(msg)) == Count(counters.failed, LabelsOf(msg)) + 4
    ensures handler(HandlerView(msg, ids[0])).err.None? ==>
              var r := Retrying(handler, ids, counters, msg);
              && r.0 == handler(HandlerView(msg, ids[0]))
              && Count(r.1.processed, LabelsOf(msg)) == Count(counters.processed, LabelsOf(msg)) + 1
              && Count(r.1.failed, LabelsOf(msg)) == Count(counters.failed, LabelsOf(msg))
  {
    var n := AttemptsMade(handler, ids, msg);
    if forall g | g != "" :: handler(HandlerView(msg, g)).err.Some? {
      assert handler(HandlerView(msg, ids[n - 1])).err.Some?;
    }
  }
}

=== FILE: read_model.dfy ===
/** The ops booking read model: a table of denormalised bookings, one row per
    booking id, folded from domain events. Each handler is a pure transition
    `Table × event × now → Result<Table, Error>`, where `now` is the instant
    the handler stamps into LastUpdate. */
module OpsReadModel {
  import opened Wrappers
  import opened Entities

  // ---------------------------------------------------------------------
  // Storage
  // ---------------------------------------------------------------------

  /** A row's JSON payload after decoding. `tickets` is None when the stored
      payload holds `null` for the ticket map (or omits it). */
  datatype Row = Row(
    bookingId: string,
    bookedAt: Timestamp,
    lastUpdate: Timestamp,
    tickets: Option<map<string, OpsTicket>>)

  /** Every row sits under the booking id its own payload names. */
  ghost predicate WellKeyed(t: map<string, Row>) {
    forall k :: k in t ==> t[k].bookingId == k
  }

  /** The read_model_ops_bookings table, booking_id column → payload. Every
      write keys the payload by its own booking id, so the table stays well
      keyed. */
  type Table = t: map<string, Row> | WellKeyed(t) witness map[]

  datatype Error =
    | BookingNotExistYet(bookingId: string)  // booking-level event before its booking
    | TicketNotExistYet(ticketId: string)    // ticket-level event before its ticket
    | BookingNotFound(bookingId: string)     // query for an absent booking

  function Marshal(b: OpsBooking): (row: Row)
    ensures row.tickets.Some?
  {
    Row(b.bookingId, b.bookedAt, b.lastUpdate, Some(b.tickets))
  }

  /** Decoding a stored payload; a null ticket map becomes an empty one, so a
      booking read from the table always has a ticket map. */
  function Unmarshal(row: Row): (b: OpsBooking)
    ensures b.bookingId == row.bookingId && b.bookedAt == row.bookedAt && b.lastUpdate == row.lastUpdate
    ensures row.tickets.None? ==> b.tickets == map[]
    ensures row.tickets.Some? ==> b.tickets == row.tickets.value
  {
    var tickets := match row.tickets
      case None => map[]
      case Some(m) => m;
    OpsBooking(row.bookingId, row.bookedAt, row.lastUpdate, tickets)
  }

  /** Whether the row's ticket map has the ticket (the jsonb `?` test). */
  predicate HasTicket(row: Row, ticketId: string)
  {
    row.tickets.Some? && ticketId in row.tickets.value
  }

  /** A ticket id belongs to at most one booking of the table. */
  ghost predicate SoleOwner(t: Table, ticketId: string)
  {
    forall k1, k2 :: k1 in t && k2 in t && HasTicket(t[k1], ticketId) && HasTicket(t[k2], ticketId) ==> k1 == k2
  }

  /** The ticket `ticketId` of booking `k` as read from the table. */
  function TicketAt(t: Table, k: string, ticketId: string): OpsTicket
    requires k in t && HasTicket(t[k], ticketId)
  {
    Unmarshal(t[k]).tickets[ticketId]
  }

  // ---------------------------------------------------------------------
  // Queries
  // ---------------------------------------------------------------------

  /** findByBookingID: None stands for "no rows". */
  function FindByBookingId(t: Table, bookingId: string): (r: Option<OpsBooking>)
    ensures r.Some? <==> bookingId in t
    ensures r.Some? ==> r.value == Unmarshal(t[bookingId])
    ensures r.Some? ==> r.value.bookingId == bookingId && r.value.bookedAt == t[bookingId].bookedAt
                        && r.value.lastUpdate == t[bookingId].lastUpdate
  {
    if bookingId in t then Some(Unmarshal(t[bookingId])) else None
  }

  /** findByTicketID: the key of some booking whose ticket map has the
      ticket; which one is unspecified when several do. */
  ghost function FindByTicketId(t: Table, ticketId: string): (r: Option<string>)
    ensures r.Some? <==> exists k :: k in t && HasTicket(t[k], ticketId)
    ensures r.Some? ==> r.value in t && HasTicket(t[r.value], ticketId)
    ensures r.Some? && SoleOwner(t, ticketId) ==>
              forall k :: k in t && HasTicket(t[k], ticketId) ==> k == r.value
  {
    if k :| k in t && HasTicket(t[k], ticketId) then Some(k) else None
  }

  /** FindByID: the booking, or a not-found error. */
  function FindById(t: Table, bookingId: string): (r: Result<OpsBooking, Error>)
    ensures r.Ok? <==> bookingId in t
    ensures r.Err? ==> r.error == BookingNotFound(bookingId)
    ensures r.Ok? ==> r.value == Unmarshal(t[bookingId])
    ensures r.Ok? ==> r.value.bookingId == bookingId && r.value.bookedAt == t[bookingId].bookedAt
                      && r.value.lastUpdate == t[bookingId].lastUpdate
    ensures r.Ok? ==> forall x :: x in r.value.tickets <==> HasTicket(t[bookingId], x)
    ensures r.Ok? ==> forall x :: HasTicket(t[bookingId], x) ==> r.value.tickets[x] == t[bookingId].tickets.value[x]
  {
    match FindByBookingId(t, bookingId)
    case None => Err(BookingNotFound(bookingId))
    case Some(b) => Ok(b)
  }

  // ---------------------------------------------------------------------
  // Writes
  // ---------------------------------------------------------------------

  /** createReadModel: insert unless a row for the booking already exists. */
  function CreateReadModel(t: Table, b: OpsBooking): (r: Table)
    ensures r.Keys == t.Keys + {b.bookingId}
    ensures forall k :: k in t ==> r[k] == t[k]
    ensures b.bookingId !in t ==> Unmarshal(r[b.bookingId]) == b
  {
    if b.bookingId in t then t else t[b.bookingId := Marshal(b)]
  }

  /** updateReadModel: upsert the booking under its id, stamped with `now`. */
  function UpdateReadModel(t: Table, rm: OpsBooking, now: Timestamp): (r: Table)
    ensures r.Keys == t.Keys + {rm.bookingId}
    ensures Unmarshal(r[rm.bookingId]) == rm.(lastUpdate := now)
    ensures forall k :: k in t && k != rm.bookingId ==> r[k] == t[k]
  {
    t[rm.bookingId := Marshal(rm.(lastUpdate := now))]
  }

  /** updateByBookingID: read, transform and write back one booking; a
      missing booking is an error (the event came before its booking). */
  function UpdateByBookingId(t: Table, bookingId: string, update: OpsBooking -> OpsBooking, now: Timestamp)
    : (r: Result<Table, Error>)
    ensures r.Err? <==> bookingId !in t
    ensures r.Err? ==> r.error == BookingNotExistYet(bookingId)
    ensures r.Ok? ==> var rm := update(Unmarshal(t[bookingId]));
              && r.value.Keys == t.Keys + {rm.bookingId}
              && Unmarshal(r.value[rm.bookingId]) == rm.(lastUpdate := now)
              && forall k :: k in t && k != rm.bookingId ==> r.value[k] == t[k]
  {
    match FindByBookingId(t, bookingId)
    case None => Err(BookingNotExistYet(bookingId))
    case Some(rm) => Ok(UpdateReadModel(t, update(rm), now))
  }

  /** `after` differs from `before` only in booking `k`, and there only in
      ticket `ticketId` (now `ticket`) and in LastUpdate (now `now`). */
  ghost predicate OnlyTicketReplaced(before: Table, after: Table, k: string, ticketId: string, ticket: OpsTicket, now: Timestamp)
  {
    && k in before
    && after.Keys == before.Keys
    && (forall j :: j in before && j != k ==> after[j] == before[j])
    && var b, a := Unmarshal(before[k]), Unmarshal(after[k]);
       && a.bookedAt == b.bookedAt
       && a.lastUpdate == now
       && a.tickets == b.tickets[ticketId := ticket]
  }

  /** updateByTicketID: transform one ticket of the booking holding it; a
      ticket no booking holds is an error (the event came before the ticket's
      confirmation). */
  ghost function UpdateByTicketId(t: Table, ticketId: string, update: OpsTicket -> OpsTicket, now: Timestamp)
    : (r: Result<Table, Error>)
    ensures r.Err? <==> FindByTicketId(t, ticketId).None?
    ensures r.Err? ==> r.error == TicketNotExistYet(ticketId)
    ensures r.Ok? ==> var k := FindByTicketId(t, ticketId).value;
              OnlyTicketReplaced(t, r.value, k, ticketId, update(TicketAt(t, k, ticketId)), now)
  {
    match FindByTicketId(t, ticketId)
    case None => Err(TicketNotExistYet(ticketId))
    case Some(k) =>
      var rm := Unmarshal(t[k]);
      var ticket := rm.tickets[ticketId];
      Ok(UpdateReadModel(t, rm.(tickets := rm.tickets[ticketId := update(ticket)]), now))
  }

  // ---------------------------------------------------------------------
  // Ticket field groups: each event type owns one of them
  // ---------------------------------------------------------------------

  datatype Confirmation = Confirmation(priceAmount: string, priceCurrency: string, customerEmail: string, confirmedAt: Timestamp)
  datatype Printing = Printing(printedAt: Timestamp, fileName: string)
  datatype Receipt = Receipt(issuedAt: Timestamp, number: string)

  function ConfirmationOf(x: OpsTicket): Confirmation {
    Confirmation(x.priceAmount, x.priceCurrency, x.customerEmail, x.confirmedAt)
  }
  function PrintingOf(x: OpsTicket): Printing { Printing(x.printedAt, x.printedFileName) }
  function ReceiptOf(x: OpsTicket): Receipt { Receipt(x.receiptIssuedAt, x.receiptNumber) }
  function RefundOf(x: OpsTicket): Timestamp { x.refundedAt }

  /** The four groups partition a ticket's fields. */
  lemma GroupsDetermineTicket(x: OpsTicket, y: OpsTicket)
    ensures x == y <==>
      && ConfirmationOf(x) == ConfirmationOf(y) && PrintingOf(x) == PrintingOf(y)
      && ReceiptOf(x) == ReceiptOf(y) && RefundOf(x) == RefundOf(y)
  {
  }

  function WithConfirmation(x: OpsTicket, c: Confirmation): (r: OpsTicket)
    ensures ConfirmationOf(r) == c
    ensures PrintingOf(r) == PrintingOf(x) && ReceiptOf(r) == ReceiptOf(x) && RefundOf(r) == RefundOf(x)
  {
    x.(priceAmount := c.priceAmount, priceCurrency := c.priceCurrency,
       customerEmail := c.customerEmail, confirmedAt := c.confirmedAt)
  }

  function WithPrinting(x: OpsTicket, p: Printing): (r: OpsTicket)
    ensures PrintingOf(r) == p
    ensures ConfirmationOf(r) == ConfirmationOf(x) && ReceiptOf(r) == ReceiptOf(x) && RefundOf(r) == RefundOf(x)
  {
    x.(printedAt := p.printedAt, printedFileName := p.fileName)
  }

  function WithReceipt(x: OpsTicket, rc: Receipt): (r: OpsTicket)
    ensures ReceiptOf(r) == rc
    ensures ConfirmationOf(r) == ConfirmationOf(x) && PrintingOf(r) == PrintingOf(x) && RefundOf(r) == RefundOf(x)
  {
    x.(receiptIssuedAt := rc.issuedAt, receiptNumber := rc.number)
  }

  function WithRefund(x: OpsTicket, at: Timestamp): (r: OpsTicket)
    ensures RefundOf(r) == at
    ensures ConfirmationOf(r) == ConfirmationOf(x) && PrintingOf(r) == PrintingOf(x) && ReceiptOf(r) == ReceiptOf(x)
  {
    x.(refundedAt := at)
  }

  function ConfirmationFrom(e: TicketBookingConfirmed): Confirmation {
    Confirmation(e.price.amount, e.price.currency, e.customerEmail, e.header.publishedAt)
  }
  function PrintingFrom(e: TicketPrinted): Printing { Printing(e.header.publishedAt, e.fileName) }
  function ReceiptFrom(e: TicketReceiptIssued): Receipt { Receipt(e.issuedAt, e.receiptNumber) }

  // ---------------------------------------------------------------------
  // Event handlers
  // ---------------------------------------------------------------------

  /** The booking a BookingMade event creates: no tickets yet, booked at the
      event's publication time. */
  function NewBooking(e: BookingMade, now: Timestamp): (b: OpsBooking)
    ensures b.bookingId == e.bookingId && b.tickets == map[]
    ensures b.bookedAt == e.header.publishedAt && b.lastUpdate == now
  {
    OpsBooking(e.bookingId, e.header.publishedAt, now, map[])
  }

  /** OnBookingMade: create the booking unless it is already there. */
  function OnBookingMade(t: Table, e: BookingMade, now: Timestamp): (r: Result<Table, Error>)
    ensures r.Ok?
    ensures e.bookingId in t ==> r.value == t
    ensures e.bookingId !in t ==>
              && r.value.Keys == t.Keys + {e.bookingId}
              && (forall k :: k in t ==> r.value[k] == t[k])
              && FindByBookingId(r.value, e.bookingId)
                 == Some(OpsBooking(e.bookingId, e.header.publishedAt, now, map[]))
  {
    Ok(CreateReadModel(t, NewBooking(e, now)))
  }

  /** The updateFunc of OnTicketBookingConfirmed: set the confirmation
      fields of the ticket, starting from a zero ticket if it is new. */
  function ConfirmTicket(e: TicketBookingConfirmed): (f: OpsBooking -> OpsBooking)
    ensures forall rm: OpsBooking {:trigger f(rm)} ::
              && f(rm).bookingId == rm.bookingId && f(rm).bookedAt == rm.bookedAt && f(rm).lastUpdate == rm.lastUpdate
              && f(rm).tickets.Keys == rm.tickets.Keys + {e.ticketId}
              && (forall x :: x in rm.tickets && x != e.ticketId ==> f(rm).tickets[x] == rm.tickets[x])
              && var prior := if e.ticketId in rm.tickets then rm.tickets[e.ticketId] else ZeroTicket;
                 && ConfirmationOf(f(rm).tickets[e.ticketId]) == ConfirmationFrom(e)
                 && PrintingOf(f(rm).tickets[e.ticketId]) == PrintingOf(prior)
                 && ReceiptOf(f(rm).tickets[e.ticketId]) == ReceiptOf(prior)
                 && RefundOf(f(rm).tickets[e.ticketId]) == RefundOf(prior)
  {
    (rm: OpsBooking) =>
      var ticket := if e.ticketId in rm.tickets then rm.tickets[e.ticketId] else ZeroTicket;
      rm.(tickets := rm.tickets[e.ticketId := WithConfirmation(ticket, ConfirmationFrom(e))])
  }

  /** OnTicketBookingConfirmed: confirm the ticket within its booking, which
      must already exist. */
  function OnTicketBookingConfirmed(t: Table, e: TicketBookingConfirmed, now: Timestamp): (r: Result<Table, Error>)
    ensures r.Err? <==> e.bookingId !in t
    ensures r.Err? ==> r.error == BookingNotExistYet(e.bookingId)
    ensures r.Ok? ==>
              && e.bookingId in r.value
              && HasTicket(r.value[e.bookingId], e.ticketId)
              && var before, after := Unmarshal(t[e.bookingId]), TicketAt(r.value, e.bookingId, e.ticketId);
                 var prior := if e.ticketId in before.tickets then before.tickets[e.ticketId] else ZeroTicket;
                 && OnlyTicketReplaced(t, r.value, e.bookingId, e.ticketId, after, now)
                 && ConfirmationOf(after) == ConfirmationFrom(e)
                 && PrintingOf(after) == PrintingOf(prior)
                 && ReceiptOf(after) == ReceiptOf(prior)
                 && RefundOf(after) == RefundOf(prior)
  {
    UpdateByBookingId(t, e.bookingId, ConfirmTicket(e), now)
  }

  function RefundPatch(e: TicketRefunded): (f: OpsTicket -> OpsTicket)
    ensures forall x {:trigger f(x)} :: RefundOf(f(x)) == e.header.publishedAt
              && ConfirmationOf(f(x)) == ConfirmationOf(x) && PrintingOf(f(x)) == PrintingOf(x)
              && ReceiptOf(f(x)) == ReceiptOf(x)
  {
    x => WithRefund(x, e.header.publishedAt)
  }

  function PrintPatch(e: TicketPrinted): (f: OpsTicket -> OpsTicket)
    ensures forall x {:trigger f(x)} :: PrintingOf(f(x)) == Printing(e.header.publishedAt, e.fileName)
              && ConfirmationOf(f(x)) == ConfirmationOf(x) && ReceiptOf(f(x)) == ReceiptOf(x)
              && RefundOf(f(x)) == RefundOf(x)
  {
    x => WithPrinting(x, PrintingFrom(e))
  }

  function ReceiptPatch(e: TicketReceiptIssued): (f: OpsTicket -> OpsTicket)
    ensures forall x {:trigger f(x)} :: ReceiptOf(f(x)) == Receipt(e.issuedAt, e.receiptNumber)
              && ConfirmationOf(f(x)) == ConfirmationOf(x) && PrintingOf(f(x)) == PrintingOf(x)
              && RefundOf(f(x)) == RefundOf(x)
  {
    x => WithReceipt(x, ReceiptFrom(e))
  }

  /** OnTicketRefunded: record the refund time on the ticket. */
  ghost function OnTicketRefunded(t: Table, e: TicketRefunded, now: Timestamp): (r: Result<Table, Error>)
    ensures r.Err? <==> !exists k :: k in t && HasTicket(t[k], e.ticketId)
    ensures r.Err? ==> r.error == TicketNotExistYet(e.ticketId)
    ensures r.Ok? ==>
              var k := FindByTicketId(t, e.ticketId).value;
              && k in r.value && HasTicket(r.value[k], e.ticketId)
              && var prior, after := TicketAt(t, k, e.ticketId), TicketAt(r.value, k, e.ticketId);
                 && OnlyTicketReplaced(t, r.value, k, e.ticketId, after, now)
                 && RefundOf(after) == e.header.publishedAt
                 && ConfirmationOf(after) == ConfirmationOf(prior)
                 && PrintingOf(after) == PrintingOf(prior)
                 && ReceiptOf(after) == ReceiptOf(prior)
  {
    UpdateByTicketId(t, e.ticketId, RefundPatch(e), now)
  }

  /** OnTicketPrinted: record when and as which file the ticket was printed. */
  ghost function OnTicketPrinted(t: Table, e: TicketPrinted, now: Timestamp): (r: Result<Table, Error>)
    ensures r.Err? <==> !exists k :: k in t && HasTicket(t[k], e.ticketId)
    ensures r.Err? ==> r.error == TicketNotExistYet(e.ticketId)
    ensures r.Ok? ==>
              var k := FindByTicketId(t, e.ticketId).value;
              && k in r.value && HasTicket(r.value[k], e.ticketId)
              && var prior, after := TicketAt(t, k, e.ticketId), TicketAt(r.value, k, e.ticketId);
                 && OnlyTicketReplaced(t, r.value, k, e.ticketId, after, now)
                 && PrintingOf(after) == Printing(e.header.publishedAt, e.fileName)
                 && ConfirmationOf(after) == ConfirmationOf(prior)
                 && ReceiptOf(after) == ReceiptOf(prior)
                 && RefundOf(after) == RefundOf(prior)
  {
    UpdateByTicketId(t, e.ticketId, PrintPatch(e), now)
  }

  /** OnTicketReceiptIssued: record the receipt number and issue time. */
  ghost function OnTicketReceiptIssued(t: Table, e: TicketReceiptIssued, now: Timestamp): (r: Result<Table, Error>)
    ensures r.Err? <==> !exists k :: k in t && HasTicket(t[k], e.ticketId)
    ensures r.Err? ==> r.error == TicketNotExistYet(e.ticketId)
    ensures r.Ok? ==>
              var k := FindByTicketId(t, e.ticketId).value;
              && k in r.value && HasTicket(r.value[k], e.ticketId)
              && var prior, after := TicketAt(t, k, e.ticketId), TicketAt(r.value, k, e.ticketId);
                 && OnlyTicketReplaced(t, r.value, k, e.ticketId, after, now)
                 && ReceiptOf(after) == Receipt(e.issuedAt, e.receiptNumber)
                 && ConfirmationOf(after) == ConfirmationOf(prior)
                 && PrintingOf(after) == PrintingOf(prior)
                 && RefundOf(after) == RefundOf(prior)
  {
    UpdateByTicketId(t, e.ticketId, ReceiptPatch(e), now)
  }

  // ---------------------------------------------------------------------
  // Dispatch
  // ---------------------------------------------------------------------

  /** The events the read model subscribes to. */
  datatype Event =
    | Made(made: BookingMade)
    | Confirmed(confirmed: TicketBookingConfirmed)
    | Refunded(refunded: TicketRefunded)
    | Printed(printed: TicketPrinted)
    | ReceiptIssued(issued: TicketReceiptIssued)
  {
    predicate IsTicketLevel() { Refunded? || Printed? || ReceiptIssued? }

    function TicketId(): string
      requires IsTicketLevel()
    {
      match this
      case Refunded(e) => e.ticketId
      case Printed(e) => e.ticketId
      case ReceiptIssued(e) => e.ticketId
    }
  }

  /** The handler registered for each event type. */
  ghost function Apply(t: Table, ev: Event, now: Timestamp): (r: Result<Table, Error>)
    ensures ev.Made? ==> r.Ok?
    ensures ev.Confirmed? ==> (r.Err? <==> ev.confirmed.bookingId !in t)
    ensures ev.IsTicketLevel() ==> (r.Err? <==> !exists k :: k in t && HasTicket(t[k], ev.TicketId()))
    ensures r.Err? ==> r.error == (if ev.Confirmed? then BookingNotExistYet(ev.confirmed.bookingId)
                                   else TicketNotExistYet(ev.TicketId()))
  {
    match ev
    case Made(e) => OnBookingMade(t, e, now)
    case Confirmed(e) => OnTicketBookingConfirmed(t, e, now)
    case Refunded(e) => OnTicketRefunded(t, e, now)
    case Printed(e) => OnTicketPrinted(t, e, now)
    case ReceiptIssued(e) => OnTicketReceiptIssued(t, e, now)
  }

  /** The ticket patch a ticket-level event applies. */
  function PatchOf(ev: Event): OpsTicket -> OpsTicket
    requires ev.IsTicketLevel()
  {
    match ev
    case Refunded(e) => RefundPatch(e)
    case Printed(e) => PrintPatch(e)
    case ReceiptIssued(e) => ReceiptPatch(e)
  }
}

=== FILE: read_model_properties.dfy ===
/** Properties of the ops read model that relate several handler calls:
    redelivery is harmless, ticket-level events on one ticket commute, an
    event that arrives before its prerequisite is rejected and converges once
    redelivered, and no sequence of deliveries loses a booking or a ticket. */
module OpsReadModelProperties {
  import opened Wrappers
  import opened Entities
  import opened OpsReadModel

  // ---------------------------------------------------------------------
  // Payload encoding
  // ---------------------------------------------------------------------

  /** Encoding then decoding a booking gives it back. */
  lemma UnmarshalMarshal(b: OpsBooking)
    ensures Unmarshal(Marshal(b)) == b
  {
  }

  /** Decoding then encoding a row gives it back exactly when its ticket map
      is not null; a null map comes back as an empty one. */
  lemma MarshalUnmarshal(row: Row)
    ensures Marshal(Unmarshal(row)) == row <==> row.tickets.Some?
    ensures row.tickets.None? ==> Marshal(Unmarshal(row)).tickets == Some(map[])
  {
  }

  // ---------------------------------------------------------------------
  // Reading back what was written
  // ---------------------------------------------------------------------

  /** FindByID reads back exactly the booking updateReadModel wrote, stamped
      with the write time, and every other booking as it was before. */
  lemma FindAfterUpdate(t: Table, rm: OpsBooking, now: Timestamp, id: string)
    ensures FindById(UpdateReadModel(t, rm, now), rm.bookingId) == Ok(rm.(lastUpdate := now))
    ensures id != rm.bookingId ==> FindById(UpdateReadModel(t, rm, now), id) == FindById(t, id)
  {
  }

  /** After BookingMade, FindByID returns the new booking, or the one that
      was already stored; both lookups agree on what they find. */
  lemma FindAfterBookingMade(t: Table, e: BookingMade, now: Timestamp)
    ensures e.bookingId !in t ==> FindById(OnBookingMade(t, e, now).value, e.bookingId) == Ok(NewBooking(e, now))
    ensures e.bookingId in t ==> FindById(OnBookingMade(t, e, now).value, e.bookingId) == FindById(t, e.bookingId)
    ensures FindById(t, e.bookingId).Ok? <==> FindByBookingId(t, e.bookingId).Some?
    ensures FindById(t, e.bookingId).Ok? ==> FindByBookingId(t, e.bookingId) == Some(FindById(t, e.bookingId).value)
  {
  }

  // ---------------------------------------------------------------------
  // Facts about OnlyTicketReplaced
  // ---------------------------------------------------------------------

  /** A ticket replacement determines the resulting table. */
  lemma ReplacedUnique(t: Table, u1: Table, u2: Table, k: string, ticketId: string, ticket: OpsTicket, now: Timestamp)
    requires OnlyTicketReplaced(t, u1, k, ticketId, ticket, now)
    requires OnlyTicketReplaced(t, u2, k, ticketId, ticket, now)
    ensures u1 == u2
  {
    assert ticketId in Unmarshal(u1[k]).tickets && ticketId in Unmarshal(u2[k]).tickets;
    assert u1[k].tickets.Some? && u2[k].tickets.Some?;
    assert u1[k] == u2[k];
    assert forall j :: j in u1 ==> u1[j] == u2[j];
  }

  /** Two replacements of the same ticket amount to the second one. */
  lemma ReplacedCompose(t: Table, t1: Table, t2: Table, k: string, ticketId: string,
                        y: OpsTicket, z: OpsTicket, n1: Timestamp, n2: Timestamp)
    requires OnlyTicketReplaced(t, t1, k, ticketId, y, n1)
    requires OnlyTicketReplaced(t1, t2, k, ticketId, z, n2)
    ensures OnlyTicketReplaced(t, t2, k, ticketId, z, n2)
  {
    var m := Unmarshal(t[k]).tickets;
    assert m[ticketId := y][ticketId := z] == m[ticketId := z];
  }

  /** After a replacement, a sole owner of the ticket is still its sole owner
      and the lookup by ticket id finds it again, holding the new ticket. */
  lemma OwnerAfterReplace(t: Table, t1: Table, k: string, ticketId: string, y: OpsTicket, now: Timestamp)
    requires OnlyTicketReplaced(t, t1, k, ticketId, y, now)
    requires SoleOwner(t, ticketId) && HasTicket(t[k], ticketId)
    ensures k in t1 && HasTicket(t1[k], ticketId) && TicketAt(t1, k, ticketId) == y
    ensures SoleOwner(t1, ticketId)
    ensures FindByTicketId(t1, ticketId) == Some(k)
  {
    assert ticketId in Unmarshal(t1[k]).tickets;
    assert HasTicket(t1[k], ticketId);
  }

  // ---------------------------------------------------------------------
  // updateByTicketID: redelivery and commutation
  // ---------------------------------------------------------------------

  /** An idempotent ticket patch applied twice through updateByTicketID has
      the effect of the second application alone. */
  lemma UpdateByTicketIdIdempotent(t: Table, ticketId: string, f: OpsTicket -> OpsTicket, n1: Timestamp, n2: Timestamp)
    requires SoleOwner(t, ticketId)
    requires forall x :: f(f(x)) == f(x)
    ensures UpdateByTicketId(t, ticketId, f, n1).Ok? ==>
              UpdateByTicketId(UpdateByTicketId(t, ticketId, f, n1).value, ticketId, f, n2)
              == UpdateByTicketId(t, ticketId, f, n2)
  {
    var r1 := UpdateByTicketId(t, ticketId, f, n1);
    if r1.Ok? {
      var k := FindByTicketId(t, ticketId).value;
      var x := TicketAt(t, k, ticketId);
      var t1 := r1.value;
      OwnerAfterReplace(t, t1, k, ticketId, f(x), n1);
      var r2 := UpdateByTicketId(t1, ticketId, f, n2);
      var r3 := UpdateByTicketId(t, ticketId, f, n2);
      assert OnlyTicketReplaced(t1, r2.value, k, ticketId, f(f(x)), n2);
      ReplacedCompose(t, t1, r2.value, k, ticketId, f(x), f(f(x)), n1, n2);
      ReplacedUnique(t, r2.value, r3.value, k, ticketId, f(x), n2);
    }
  }

  /** Two commuting ticket patches applied through updateByTicketID give the
      same table in either order. */
  lemma UpdateByTicketIdCommute(t: Table, ticketId: string, f: OpsTicket -> OpsTicket, g: OpsTicket -> OpsTicket,
                                n1: Timestamp, n2: Timestamp)
    requires SoleOwner(t, ticketId)
    requires forall x :: f(g(x)) == g(f(x))
    ensures UpdateByTicketId(t, ticketId, f, n1).Ok? <==> UpdateByTicketId(t, ticketId, g, n1).Ok?
    ensures UpdateByTicketId(t, ticketId, f, n1).Ok? ==>
              UpdateByTicketId(UpdateByTicketId(t, ticketId, f, n1).value, ticketId, g, n2)
              == UpdateByTicketId(UpdateByTicketId(t, ticketId, g, n1).value, ticketId, f, n2)
  {
    var rf := UpdateByTicketId(t, ticketId, f, n1);
    var rg := UpdateByTicketId(t, ticketId, g, n1);
    if rf.Ok? {
      var k := FindByTicketId(t, ticketId).value;
      var x := TicketAt(t, k, ticketId);
      OwnerAfterReplace(t, rf.value, k, ticketId, f(x), n1);
      OwnerAfterReplace(t, rg.value, k, ticketId, g(x), n1);
      var a := UpdateByTicketId(rf.value, ticketId, g, n2);
      var b := UpdateByTicketId(rg.value, ticketId, f, n2);
      ReplacedCompose(t, rf.value, a.value, k, ticketId, f(x), g(f(x)), n1, n2);
      ReplacedCompose(t, rg.value, b.value, k, ticketId, g(x), f(g(x)), n1, n2);
      ReplacedUnique(t, a.value, b.value, k, ticketId, f(g(x)), n2);
    }
  }

  // ---------------------------------------------------------------------
  // Ticket-level events
  // ---------------------------------------------------------------------

  /** A ticket-level event is its patch applied through updateByTicketID. */
  lemma TicketLevelApply(t: Table, ev: Event, now: Timestamp)
    requires ev.IsTicketLevel()
    ensures Apply(t, ev, now) == UpdateByTicketId(t, ev.TicketId(), PatchOf(ev), now)
  {
  }

  /** Each ticket-level patch writes only its own field group, so applying it
      twice is applying it once, and patches of different event types commute. */
  lemma PatchesIdempotentAndIndependent(e1: Event, e2: Event, x: OpsTicket)
    requires e1.IsTicketLevel() && e2.IsTicketLevel()
    ensures PatchOf(e1)(PatchOf(e1)(x)) == PatchOf(e1)(x)
    ensures !SameType(e1, e2) ==> PatchOf(e1)(PatchOf(e2)(x)) == PatchOf(e2)(PatchOf(e1)(x))
  {
  }

  predicate SameType(e1: Event, e2: Event) {
    (e1.Made? && e2.Made?) || (e1.Confirmed? && e2.Confirmed?) || (e1.Refunded? && e2.Refunded?)
    || (e1.Printed? && e2.Printed?) || (e1.ReceiptIssued? && e2.ReceiptIssued?)
  }

  /** Redelivering a ticket-level event that was applied has the effect of
      applying it once (only LastUpdate reflects the later delivery). */
  lemma TicketEventRedelivery(t: Table, ev: Event, n1: Timestamp, n2: Timestamp)
    requires ev.IsTicketLevel()
    requires SoleOwner(t, ev.TicketId())
    ensures Apply(t, ev, n1).Ok? ==> Apply(Apply(t, ev, n1).value, ev, n2) == Apply(t, ev, n2)
  {
    var f := PatchOf(ev);
    forall x ensures f(f(x)) == f(x) {
      PatchesIdempotentAndIndependent(ev, ev, x);
    }
    TicketLevelApply(t, ev, n1);
    TicketLevelApply(t, ev, n2);
    if Apply(t, ev, n1).Ok? {
      TicketLevelApply(Apply(t, ev, n1).value, ev, n2);
    }
    UpdateByTicketIdIdempotent(t, ev.TicketId(), f, n1, n2);
  }

  /** Two ticket-level events of different types on the same ticket give the
      same table whichever arrives first: neither clears the other's fields. */
  lemma TicketEventsCommute(t: Table, e1: Event, e2: Event, n1: Timestamp, n2: Timestamp)
    requires e1.IsTicketLevel() && e2.IsTicketLevel() && !SameType(e1, e2)
    requires e1.TicketId() == e2.TicketId()
    requires SoleOwner(t, e1.TicketId())
    ensures Apply(t, e1, n1).Ok? <==> Apply(t, e2, n1).Ok?
    ensures Apply(t, e1, n1).Ok? ==>
              Apply(Apply(t, e1, n1).value, e2, n2) == Apply(Apply(t, e2, n1).value, e1, n2)
  {
    var f, g := PatchOf(e1), PatchOf(e2);
    forall x ensures f(g(x)) == g(f(x)) {
      PatchesIdempotentAndIndependent(e1, e2, x);
    }
    TicketLevelApply(t, e1, n1);
    TicketLevelApply(t, e2, n1);
    if Apply(t, e1, n1).Ok? {
      TicketLevelApply(Apply(t, e1, n1).value, e2, n2);
      TicketLevelApply(Apply(t, e2, n1).value, e1, n2);
    }
    UpdateByTicketIdCommute(t, e1.TicketId(), f, g, n1, n2);
  }

  // ---------------------------------------------------------------------
  // Booking-level events
  // ---------------------------------------------------------------------

  /** Redelivering BookingMade is a no-op that succeeds. */
  lemma BookingMadeRedelivery(t: Table, e: BookingMade, n1: Timestamp, n2: Timestamp)
    ensures OnBookingMade(OnBookingMade(t, e, n1).value, e, n2) == OnBookingMade(t, e, n1)
  {
  }

  /** Redelivering TicketBookingConfirmed has the effect of applying it once. */
  lemma ConfirmedRedelivery(t: Table, e: TicketBookingConfirmed, n1: Timestamp, n2: Timestamp)
    ensures OnTicketBookingConfirmed(t, e, n1).Ok? ==>
              OnTicketBookingConfirmed(OnTicketBookingConfirmed(t, e, n1).value, e, n2)
              == OnTicketBookingConfirmed(t, e, n2)
  {
    var r1 := OnTicketBookingConfirmed(t, e, n1);
    if r1.Ok? {
      var k := e.bookingId;
      var after := TicketAt(r1.value, k, e.ticketId);
      var r2 := OnTicketBookingConfirmed(r1.value, e, n2);
      var r3 := OnTicketBookingConfirmed(t, e, n2);
      var after2 := TicketAt(r2.value, k, e.ticketId);
      GroupsDetermineTicket(after, after2);
      ReplacedCompose(t, r1.value, r2.value, k, e.ticketId, after, after2, n1, n2);
      var after3 := TicketAt(r3.value, k, e.ticketId);
      GroupsDetermineTicket(after, after3);
      ReplacedUnique(t, r2.value, r3.value, k, e.ticketId, after, n2);
    }
  }

  /** Once a ticket is in its booking, a confirmation and a ticket-level
      event for it give the same table in either order. */
  lemma ConfirmedCommutesWithTicketEvent(t: Table, c: TicketBookingConfirmed, ev: Event, n1: Timestamp, n2: Timestamp)
    requires ev.IsTicketLevel() && ev.TicketId() == c.ticketId
    requires c.bookingId in t && HasTicket(t[c.bookingId], c.ticketId)
    requires SoleOwner(t, c.ticketId)
    ensures Apply(t, Confirmed(c), n1).Ok? && Apply(t, ev, n1).Ok?
    ensures Apply(Apply(t, Confirmed(c), n1).value, ev, n2) == Apply(Apply(t, ev, n1).value, Confirmed(c), n2)
  {
    var k, tid := c.bookingId, c.ticketId;
    var f := PatchOf(ev);
    var x := TicketAt(t, k, tid);
    TicketLevelApply(t, ev, n1);
    var owner := FindByTicketId(t, tid).value;
    assert owner == k;
    // confirmation first
    var t1 := Apply(t, Confirmed(c), n1).value;
    var y := TicketAt(t1, k, tid);
    OwnerAfterReplace(t, t1, k, tid, y, n1);
    TicketLevelApply(t1, ev, n2);
    var a := Apply(t1, ev, n2).value;
    ReplacedCompose(t, t1, a, k, tid, y, f(y), n1, n2);
    // ticket event first
    var s1 := Apply(t, ev, n1).value;
    OwnerAfterReplace(t, s1, k, tid, f(x), n1);
    var b := Apply(s1, Confirmed(c), n2).value;
    var z := TicketAt(b, k, tid);
    ReplacedCompose(t, s1, b, k, tid, f(x), z, n1, n2);
    // both end with the confirmation group of c and the other groups of f(x)
    PatchesIdempotentAndIndependent(ev, ev, x);
    GroupsDetermineTicket(f(y), z);
    ReplacedUnique(t, a, b, k, tid, z, n2);
  }

  // ---------------------------------------------------------------------
  // Delivery: acknowledge on success, negative-acknowledge on error
  // ---------------------------------------------------------------------

  datatype Ack = Acked | Nacked(reason: Error)

  /** One delivery of an event to the read model: a handler error leaves the
      table as it was and the message is negatively acknowledged, to be
      redelivered later. */
  ghost function Deliver(t: Table, ev: Event, now: Timestamp): (r: (Table, Ack))
    ensures r.1 == Acked <==> Apply(t, ev, now).Ok?
    ensures r.1 == Acked ==> r.0 == Apply(t, ev, now).value
    ensures r.1.Nacked? ==> r.0 == t && r.1.reason == Apply(t, ev, now).error
  {
    match Apply(t, ev, now)
    case Ok(t') => (t', Acked)
    case Err(e) => (t, Nacked(e))
  }

  datatype Delivery = Delivery(event: Event, at: Timestamp)

  /** The table after a sequence of deliveries, in order. No such sequence,
      duplicated, out of order or partly rejected, removes a booking or a
      ticket or rewrites a booking's BookedAt. */
  ghost function Project(t: Table, ds: seq<Delivery>): (r: Table)
    ensures Grows(t, r)
    decreases |ds|
  {
    if |ds| == 0 then t
    else
      var t1 := Deliver(t, ds[0].event, ds[0].at).0;
      ApplyGrows(t, ds[0].event, ds[0].at);
      var r := Project(t1, ds[1..]);
      GrowsTransitive(t, t1, r);
      r
  }

  /** A confirmation that overtakes its booking is rejected, and once
      redelivered after the booking it yields the table of in-order delivery. */
  lemma OutOfOrderConvergence(t: Table, m: BookingMade, c: TicketBookingConfirmed, n0: Timestamp, n1: Timestamp, n2: Timestamp)
    requires m.bookingId == c.bookingId && m.bookingId !in t
    ensures Deliver(t, Confirmed(c), n0).1 == Nacked(BookingNotExistYet(c.bookingId))
    ensures Project(t, [Delivery(Confirmed(c), n0), Delivery(Made(m), n1), Delivery(Confirmed(c), n2)])
            == Project(t, [Delivery(Made(m), n1), Delivery(Confirmed(c), n2)])
  {
    var late := [Delivery(Confirmed(c), n0), Delivery(Made(m), n1), Delivery(Confirmed(c), n2)];
    assert late[1..] == [Delivery(Made(m), n1), Delivery(Confirmed(c), n2)];
  }

  /** `u` keeps every booking of `t` with its booking time and its tickets. */
  ghost predicate Grows(t: Table, u: Table) {
    && t.Keys <= u.Keys
    && forall k :: k in t ==>
         && u[k].bookedAt == t[k].bookedAt
         && forall x :: HasTicket(t[k], x) ==> HasTicket(u[k], x)
  }

  /** A successful handler never removes a booking or a ticket and never
      changes a booking's BookedAt. */
  lemma ApplyGrows(t: Table, ev: Event, now: Timestamp)
    ensures Apply(t, ev, now).Ok? ==> Grows(t, Apply(t, ev, now).value)
  {
    var r := Apply(t, ev, now);
    if r.Ok? {
      match ev
      case Made(e) =>
      case Confirmed(e) =>
        forall x | HasTicket(t[e.bookingId], x) ensures HasTicket(r.value[e.bookingId], x) {
          assert x in Unmarshal(r.value[e.bookingId]).tickets;
        }
      case _ =>
        var k := FindByTicketId(t, ev.TicketId()).value;
        forall x | HasTicket(t[k], x) ensures HasTicket(r.value[k], x) {
          assert x in Unmarshal(r.value[k]).tickets;
        }
    }
  }

  lemma GrowsTransitive(a: Table, b: Table, c: Table)
    requires Grows(a, b) && Grows(b, c)
    ensures Grows(a, c)
  {
  }
}

=== FILE: router.dfy ===
/** The two consumer handlers on the `events` topic: the splitter, which
    re-routes each event to a per-type topic, and the data-lake sink, which
    archives each event verbatim. Also the static table of handler names
    registered on the router. How a message's event name is read and how its
    header is decoded belong to the configured marshaler; both are parameters. */
module EventRouting {
  import opened Wrappers
  import opened Entities
  import opened Messages
  import OpsReadModel

  datatype RoutingError =
    | MissingEventName           // the marshaler found no event name
    | UndecodableHeader          // the payload's header could not be decoded

  /** The topic both consumers subscribe to; the per-type topics extend it. */
  const EventsTopic: string := "events"

  /** Per-type topics are the ingress topic name, a dot, and the event name. */
  const EventTopicPrefix: string := EventsTopic + "."

  /** The per-type topic of an event name. */
  function EventTopic(eventName: string): (topic: string)
    ensures |EventTopicPrefix| <= |topic| && topic[..|EventTopicPrefix|] == EventTopicPrefix
    ensures topic[|EventTopicPrefix|..] == eventName
  {
    var topic := EventTopicPrefix + eventName;
    assert topic[..|EventTopicPrefix|] == EventTopicPrefix;
    assert topic[|EventTopicPrefix|..] == eventName;
    topic
  }

  /** The event name a per-type topic carries, or None for any other topic. */
  function TopicEventName(topic: string): (r: Option<string>)
    ensures r.Some? ==> |EventTopicPrefix| <= |topic| && topic[..|EventTopicPrefix|] == EventTopicPrefix
  {
    if |EventTopicPrefix| <= |topic| && topic[..|EventTopicPrefix|] == EventTopicPrefix
    then Some(topic[|EventTopicPrefix|..])
    else None
  }

  /** Reading an event name back from its per-type topic gives the name, and
      a topic that carries a name is that name's per-type topic: distinct
      names never share a topic. */
  lemma EventTopicRoundTrip(eventName: string, topic: string)
    ensures TopicEventName(EventTopic(eventName)) == Some(eventName)
    ensures TopicEventName(topic) == Some(eventName) ==> EventTopic(eventName) == topic
  {
    var t := EventTopic(eventName);
    assert t[..|EventTopicPrefix|] == EventTopicPrefix;
    assert t[|EventTopicPrefix|..] == eventName;
    if TopicEventName(topic) == Some(eventName) {
      assert topic == topic[..|EventTopicPrefix|] + topic[|EventTopicPrefix|..];
    }
  }

  /** A message handed to the publisher, with its destination. */
  datatype Publication = Publication(topic: string, msg: Message)

  /** events_splitter: hand the message, unchanged, to the publisher for the
      topic of its event name; a message without an event name is an error
      and nothing is handed over. */
  function EventsSplitter(nameOf: Message -> string, msg: Message): (r: Result<Publication, RoutingError>)
    ensures r.Err? <==> nameOf(msg) == ""
    ensures r.Err? ==> r.error == MissingEventName
    ensures r.Ok? ==> r.value.msg == msg && TopicEventName(r.value.topic) == Some(nameOf(msg))
  {
    var eventName := nameOf(msg);
    if eventName == "" then Err(MissingEventName)
    else
      EventTopicRoundTrip(eventName, EventTopic(eventName));
      Ok(Publication(EventTopic(eventName), msg))
  }

  /** What the data-lake sink stores for one event. */
  datatype ArchivedEvent = ArchivedEvent(eventId: string, header: MessageHeader, eventName: string, payload: seq<byte>)

  /** store_to_data_lake: the record to archive for a message, keyed by its
      header's id; a missing event name or an undecodable header is an error
      and nothing is stored. */
  function DataLakeRecord(nameOf: Message -> string, decodeHeader: Message -> Option<MessageHeader>, msg: Message)
    : (r: Result<ArchivedEvent, RoutingError>)
    ensures nameOf(msg) == "" ==> r == Err(MissingEventName)
    ensures nameOf(msg) != "" && decodeHeader(msg).None? ==> r == Err(UndecodableHeader)
    ensures r.Ok? <==> nameOf(msg) != "" && decodeHeader(msg).Some?
    ensures r.Ok? ==>
              && r.value.header == decodeHeader(msg).value
              && r.value.eventId == r.value.header.id
              && r.value.eventName == nameOf(msg)
              && r.value.payload == msg.payload
  {
    var eventName := nameOf(msg);
    if eventName == "" then Err(MissingEventName)
    else match decodeHeader(msg)
      case None => Err(UndecodableHeader)
      case Some(h) => Ok(ArchivedEvent(h.id, h, eventName, msg.payload))
  }

  /** The archive: event id → stored event. */
  type DataLake = map<string, ArchivedEvent>

  /** StoreEvent: insert, ignoring an event id that is already stored. */
  function StoreEvent(lake: DataLake, ev: ArchivedEvent): (r: DataLake)
    ensures r.Keys == lake.Keys + {ev.eventId}
    ensures forall id :: id in lake ==> r[id] == lake[id]
    ensures ev.eventId !in lake ==> r[ev.eventId] == ev
  {
    if ev.eventId in lake then lake else lake[ev.eventId := ev]
  }

  /** The data-lake consumer: an error leaves the archive as it was. */
  function StoreToDataLake(nameOf: Message -> string, decodeHeader: Message -> Option<MessageHeader>,
                           lake: DataLake, msg: Message): (r: Result<DataLake, RoutingError>)
    ensures r.Err? <==> DataLakeRecord(nameOf, decodeHeader, msg).Err?
    ensures r.Ok? ==> var id := decodeHeader(msg).value.id;
              && r.value.Keys == lake.Keys + {id}
              && (forall k :: k in lake ==> r.value[k] == lake[k])
              && (id !in lake ==> r.value[id].payload == msg.payload)
    ensures r.Ok? ==> var id := decodeHeader(msg).value.id;
              id !in lake ==> r.value[id] == ArchivedEvent(id, decodeHeader(msg).value, nameOf(msg), msg.payload)
    ensures r.Ok? ==> r.value == StoreEvent(lake, DataLakeRecord(nameOf, decodeHeader, msg).value)
  {
    match DataLakeRecord(nameOf, decodeHeader, msg)
    case Err(e) => Err(e)
    case Ok(ev) => Ok(StoreEvent(lake, ev))
  }

  /** Delivering the same message to the data-lake consumer twice stores it
      once: the second delivery succeeds and changes nothing. */
  lemma ArchivalIdempotent(nameOf: Message -> string, decodeHeader: Message -> Option<MessageHeader>,
                           lake: DataLake, msg: Message)
    ensures var r1 := StoreToDataLake(nameOf, decodeHeader, lake, msg);
            r1.Ok? ==> StoreToDataLake(nameOf, decodeHeader, r1.value, msg) == r1
  {
  }

  // ---------------------------------------------------------------------
  // Handler registration
  // ---------------------------------------------------------------------

  /** What a registered name stands for. Business handlers are identified
      only by name: their code is not part of this model. */
  datatype HandlerRef =
    | Splitter
    | DataLakeSink
    | BusinessEvent
    | ReadModel(kind: ReadModelHandler)
    | BusinessCommand

  datatype ReadModelHandler =
    | OnBookingMade | OnTicketBookingConfirmed | OnTicketRefunded | OnTicketPrinted | OnTicketReceiptIssued

  datatype Registration = Registration(name: string, handler: HandlerRef)

  const ReadModelPrefix: string := "ops_read_model."

  /** The handlers NewRouter registers, in registration order. */
  const Registrations: seq<Registration> := [
    Registration("events_splitter", Splitter),
    Registration("store_to_data_lake", DataLakeSink),
    Registration("StoreTicket", BusinessEvent),
    Registration("AppendToTracker", BusinessEvent),
    Registration("PrintTicket", BusinessEvent),
    Registration("TicketRefundToSheet", BusinessEvent),
    Registration("IssueReceipt", BusinessEvent),
    Registration("RemoveCanceledTicket", BusinessEvent),
    Registration("BookPlaceInDeadNation", BusinessEvent),
    Registration(ReadModelHandlerName(OnBookingMade), ReadModel(OnBookingMade)),
    Registration(ReadModelHandlerName(OnTicketBookingConfirmed), ReadModel(OnTicketBookingConfirmed)),
    Registration(ReadModelHandlerName(OnTicketRefunded), ReadModel(OnTicketRefunded)),
    Registration(ReadModelHandlerName(OnTicketPrinted), ReadModel(OnTicketPrinted)),
    Registration(ReadModelHandlerName(OnTicketReceiptIssued), ReadModel(OnTicketReceiptIssued)),
    Registration("RefundTicket", BusinessCommand)
  ]

  /** The read-model handler that consumes an event. */
  function HandlerFor(ev: OpsReadModel.Event): ReadModelHandler {
    match ev
    case Made(_) => OnBookingMade
    case Confirmed(_) => OnTicketBookingConfirmed
    case Refunded(_) => OnTicketRefunded
    case Printed(_) => OnTicketPrinted
    case ReceiptIssued(_) => OnTicketReceiptIssued
  }

  predicate HasPrefix(s: string, prefix: string) {
    |prefix| <= |s| && s[..|prefix|] == prefix
  }

  /** The Go method name of a read-model handler. */
  function MethodName(h: ReadModelHandler): string {
    match h
    case OnBookingMade => "OnBookingMade"
    case OnTicketBookingConfirmed => "OnTicketBookingConfirmed"
    case OnTicketRefunded => "OnTicketRefunded"
    case OnTicketPrinted => "OnTicketPrinted"
    case OnTicketReceiptIssued => "OnTicketReceiptIssued"
  }

  /** The name under which a read-model handler is registered. */
  function ReadModelHandlerName(h: ReadModelHandler): string {
    ReadModelPrefix + MethodName(h)
  }

  lemma PrefixOfConcat(prefix: string, rest: string)
    ensures HasPrefix(prefix + rest, prefix)
  {
    assert (prefix + rest)[..|prefix|] == prefix;
  }

  /** Names are pairwise distinct (each is a durable consumer position), and
      the read-model handlers and only they carry the `ops_read_model.`
      prefix. */
  lemma RegistrationNamesDistinct()
    ensures forall i, j :: 0 <= i < j < |Registrations| ==> Registrations[i].name != Registrations[j].name
  {
  }

  lemma ReadModelNamesPrefixed()
    ensures forall i :: 0 <= i < |Registrations| ==>
              (Registrations[i].handler.ReadModel? <==> HasPrefix(Registrations[i].name, ReadModelPrefix))
  {
    assert forall i :: 0 <= i < |Registrations| && !Registrations[i].handler.ReadModel? ==>
             |Registrations[i].name| > 0 && Registrations[i].name[0] != ReadModelPrefix[0];
    assert forall i :: 0 <= i < |Registrations| && Registrations[i].handler.ReadModel? ==>
             Registrations[i].name == ReadModelHandlerName(Registrations[i].handler.kind);
    forall i | 0 <= i < |Registrations| && Registrations[i].handler.ReadModel?
      ensures HasPrefix(Registrations[i].name, ReadModelPrefix)
    {
      PrefixOfConcat(ReadModelPrefix, MethodName(Registrations[i].handler.kind));
    }
  }

  /** Where each read-model handler sits in the table. */
  function ReadModelSlot(h: ReadModelHandler): (i: nat)
    ensures i < |Registrations|
    ensures Registrations[i].handler == ReadModel(h) && Registrations[i].name == ReadModelHandlerName(h)
  {
    match h
    case OnBookingMade => 9
    case OnTicketBookingConfirmed => 10
    case OnTicketRefunded => 11
    case OnTicketPrinted => 12
    case OnTicketReceiptIssued => 13
  }

  /** Every event the read model consumes has its handler registered under
      one name, in one slot of the table. */
  lemma EachEventHasOneHandler(ev: OpsReadModel.Event)
    ensures exists i :: 0 <= i < |Registrations| && Registrations[i].handler == ReadModel(HandlerFor(ev))
              && Registrations[i].name == ReadModelHandlerName(HandlerFor(ev))
    ensures forall i :: 0 <= i < |Registrations| && Registrations[i].handler == ReadModel(HandlerFor(ev)) ==>
              i == ReadModelSlot(HandlerFor(ev))
  {
    var i := ReadModelSlot(HandlerFor(ev));
  }
}

=== FILE: wrappers.dfy ===
/** The two failure-carrying shapes used throughout the model: an optional
    value (a missing row, an absent metadata entry) and the outcome of an
    operation that can fail with an error value (Go's `(T, error)`). */
module Wrappers {

  datatype Option<+T> = None | Some(value: T)

  datatype Result<+T, +E> = Ok(value: T) | Err(error: E)
}
